=== FILE: README.md ===
# Jog controller for a five-actuator servo arm, modelled in Dafny

The program drives five Dynamixel actuators (IDs 11 to 15) on one serial bus.

It runs in four stages:

1. **Startup.** It opens the port and sets the baud rate. If either step fails, it waits for one key and returns 0 without touching the bus.
2. **Torque on.** It enables torque on each actuator in ID order.
3. **Key loop.** It reads one keystroke per pass.
   - Escape ends the loop at once.
   - Any other key polls the present position of all five actuators, in ID order.
   - If the key is one of the ten jog keys, it then sends one goal-position write. The target is the position just read plus the key's delta (±50, or ±100 for actuator 15). The target is not clamped to the declared range of ±150000.
4. **Shutdown.** After Escape it disables torque on all five actuators in ID order, closes the port and returns 0.

Every transaction's result is classified the same way, and no bus error ever changes the control flow:

- a communication failure is reported first;
- otherwise a non-zero device error byte is reported;
- otherwise no error is reported.

## How it is modelled

The model is a pure function, `Controller.Session`, from the program's inputs to a `Run`.

The inputs are:

- whether the port opens;
- whether the baud rate takes;
- the keystrokes, as bytes;
- the replies the bus gives, `replies: nat -> Reply`.

The k-th transaction on the bus receives `replies(k)`. A reply is made of the communication outcome, the device error byte, and, for a read, the 32-bit value left in the position variable. The protocol layer decides that value even when the read fails.

A `Run` is made of:

- how startup went;
- the trace of bus commands (`Write1`, `Read4`, `Write4`, `Close`);
- the report printed for each transaction;
- the exit status (`Exited(0)`, or `AwaitingKey` when the keys ran out before an Escape).

The modules are:

- `Bus`: addresses, values, IDs, commands, replies, and the classification of a reply.
- `Keymap`: the ten jog bindings as one table, and the dispatch chain as the source writes it.
- `Controller`: the sweeps, one pass of the loop, the loop and the session.
- `Properties`: facts about a pass and about the loop.
- `SessionProperties`: facts about whole runs.
- `Scenarios`: concrete runs with their exact traces.

The source repeats code per actuator (five enable blocks, five read branches, ten key branches). The model writes each of these once, over the ID list and the key table:

- `SweepIsLiteral` gives the sweeps back as five literal writes;
- `TableMatchesLiteral` and `PassMatchesSourceChain` show the table issues exactly what the else-if chain at main.cpp:304-414 issues.

## Model

| member | source | states |
|---|---|---|
| Bus.Classify | main.cpp:155-162 | A communication failure is reported with its code and hides the device error byte. A device error is reported only after a successful round trip. A clean reply is one with success and error 0. Each direction is stated as an iff. |
| Bus.ToWord | main.cpp:306 | The 4-byte goal parameter is the value reduced modulo 2^32, as the unsigned parameter receives it. |
| Bus.FromWord | main.cpp:238 | The 32-bit word read into a signed position variable is the two's-complement value congruent to it. It is negative exactly when the top bit is set. The read path of the model does not apply it: a reply's `data` is already that signed value. |
| Bus.IdsInOrder | main.cpp:30-34 | The five managed IDs are pairwise distinct and strictly ascending, so every phase that visits them "in ID order" visits each actuator once, lowest ID first. |
| Bus.WordRoundTrip | main.cpp:238-306 | Every signed 32-bit position survives the trip through the unsigned wire word unchanged. |
| Keymap.NudgeOnTheWire | main.cpp:306 | When the stored position plus the delta is a 32-bit value, a goal write's wire word is the 32-bit word of that value. That word, read as a signed 32-bit value, equals the sum. |
| Keymap.BindingsWellFormed | main.cpp:304-414 | Every jog key moves one of the five managed IDs. Escape has no binding. |
| Keymap.BindingOf | main.cpp:304-414 | A key has a binding exactly when the table holds it, and the binding is the table's entry for that key. |
| Keymap.LiteralGoalWrite | main.cpp:304-414 | Whenever the else-if chain writes, it writes the goal-position register (116) of one of the five actuators. The value differs from that actuator's own position variable by 50 either way, or by 100 either way for actuator 15. |
| Keymap.Nudge | main.cpp:306 | A jog is a 4-byte write to the goal-position register (116) of the bound actuator. Its value minus that actuator's stored position is the key's delta. |
| Keymap.TableMatchesLiteral | main.cpp:304-414 | For every key and every stored position, the table lookup the loop uses (`BindingOf`, then `Nudge`) gives the same write as the ten-branch else-if chain. A key has no binding exactly when the chain writes nothing. |
| Controller.Sweep | main.cpp:153-226 | A sweep issues one torque write per managed actuator. `Properties.SweepIsLiteral` gives the five writes. |
| Controller.PollReads | main.cpp:235-302 | A poll issues one read per managed actuator. `Properties.CycleShape` gives them as present-position reads in ID order. |
| Controller.Cycle | main.cpp:235-414 | A pass issues the five reads plus one write exactly when the key is bound. |
| Controller.Loop | main.cpp:228-233 | The loop ends (quits) exactly when an Escape is among the keys. |
| Controller.Reports | main.cpp:155-162 | There is one report per transaction, and the report of transaction k classifies reply k. |
| Controller.AcknowledgeAndExit | main.cpp:132-137 | After a fatal startup failure the program returns only once a key has arrived, and then with status 0. |
| Controller.Session | main.cpp:128-475 | Every exit has status 0. A failed port open or baud change issues no command at all and exits on the first key. When the port opens and the baud rate takes, the run is started. A started run exits exactly when an Escape arrives, and then its last command is the close. A failed startup reports nothing. A started run has one report per transaction: every command except the final close. The report of transaction k is the classification of reply k. |
| Properties.Consumed | main.cpp:228-233 | The keys acted on are a prefix of the input that holds no Escape. If it is shorter than the input, the next key is an Escape. |
| Properties.CycleShape | main.cpp:235-302 | A pass reads present position (132) of IDs 11 to 15 in ascending order. Only then, for a bound key, it writes that actuator's goal as the value this pass's read stored plus the delta. |
| Properties.StoredHoldsReads | main.cpp:238-290 | After a pass's reads, the position variable of the actuator in slot i holds what the read addressed to that actuator (transaction n + i) left in it. `Controller.Stored` is that list of variables. |
| Properties.CycleCounts | main.cpp:235-414 | A pass issues five `Read4` commands, and one `Write4` if the key is bound, zero otherwise. So a pass never issues more than one goal write. |
| Properties.PassMatchesSourceChain | main.cpp:304-414 | A pass issues the reads and then exactly what the literal else-if chain issues for that key from the freshly stored positions. |
| Properties.LoopIssuesOnlyReadsAndGoals | main.cpp:228-415 | The loop never touches the torque register and never closes the port. Every command it issues addresses one of IDs 11 to 15. It is either a read of present position (132) or a write of goal position (116). |
| Properties.LoopStopsAtEscape | main.cpp:231-233 | The loop issues exactly what it issues for the keys before the first Escape. The Escape pass issues nothing, and keys after it are never read. |
| Properties.LoopCounts | main.cpp:228-415 | Over Escape-free keys the loop issues five `Read4` commands per key and one `Write4` per bound key. `LoopIssuesOnlyReadsAndGoals` places them at addresses 132 and 116. |
| Properties.LoopGoalsFollowReads | main.cpp:235-414 | Every goal write in the loop sits right after the five reads of its own pass. It targets a managed ID at address 116. It equals a binding's delta added to the value that pass's read of that actuator stored. `Properties.LoopPassOfKey` fixes which binding: the one of that pass's own key. |
| Properties.LoopPassOfKey | main.cpp:228-414 | The p-th key before any Escape is answered by exactly the pass for its own binding. The pass starts after five reads for every earlier key and one goal write for every earlier bound key. It computes its goal from the replies to its own reads. |
| Properties.PassAtCommands | main.cpp:235-414 | Such a pass is, command by command, the five present-position reads in ID order. For a bound key it is followed by the write of that key's own actuator: the value read for it in this pass plus that key's delta. |
| Properties.LoopShapeIgnoresReplies | main.cpp:239-246 | The loop issues the same commands for any two reply streams, except for the values of goal writes. |
| Properties.SessionDecomposes | main.cpp:153-475 | A started run's trace is the enable sweep, then the passes for the keys before the first Escape, then, if an Escape came, the disable sweep and the close. |
| Properties.SweepIsLiteral | main.cpp:153-226 | A sweep is the five single-byte writes to address 64 for IDs 11, 12, 13, 14, 15 in that order. |
| SessionProperties.FatalStartupIssuesNothing | main.cpp:128-151 | A failed open or baud change gives an empty trace (no close either) and no reports. The run exits with 0 once a key arrives. |
| SessionProperties.TorqueEnabledOnceEach | main.cpp:153-226 | In a started run, the first five commands enable torque on 11 to 15 in order. No later command enables torque. |
| SessionProperties.ShutdownDisablesThenCloses | main.cpp:417-473 | In a started run, the close appears exactly when an Escape arrived, once, as the last command. It follows the disable writes for 11 to 15 in order. Torque is disabled nowhere else. |
| SessionProperties.SessionCounts | main.cpp:228-415 | In a started run, the program issues five `Read4` commands per key before the first Escape, and one `Write4` per bound key before the first Escape. No other command is a `Read4` or a `Write4`. |
| SessionProperties.EscapeFirstShutsDown | main.cpp:228-233 | In a started run, an Escape as the first key gives exactly the five enables, the five disables and the close. |
| SessionProperties.SessionGoalsFollowReads | main.cpp:235-414 | In a started run, every goal write follows its pass's five reads and is a bound delta added to the value that pass stored. `SessionPassOfKey` fixes which key's binding. |
| SessionProperties.SessionPassOfKey | main.cpp:153-414 | In a started run, the p-th key before any Escape is answered by exactly the pass for its own binding. The pass sits right after the five enables, at the offset `LoopPassOfKey` gives. Trace position and transaction number coincide, so the pass's goal uses the replies at its own read positions. |
| SessionProperties.RepliesNeverChangeFlow | main.cpp:155-162 | For any two reply streams, a run has the same startup outcome, the same exit status and the same commands. Only the values of the goal writes may differ: no bus error is fatal. |
| Scenarios.OneKey | main.cpp:228-415 | In a started run with one non-Escape key, optionally followed by Escape, the trace is the enable sweep, that key's pass, and the shutdown if Escape came. |
| Scenarios.SteadyPass | main.cpp:235-306 | With every read finding p, a bound key's pass is the five reads and a goal of p plus its delta. |
| Scenarios.JogUpThenQuit | main.cpp:304-315 | With actuator 11 at 1000, 'u' then Escape gives a goal of 1050 for 11, then the shutdown. |
| Scenarios.BracketNudgesFifteen | main.cpp:393-403 | With actuator 15 at -200, '[' gives a goal of -100 for 15. |
| Scenarios.UnboundKeyOnlyPolls | main.cpp:235-302 | An unbound key polls all five actuators and writes no goal. |
| Scenarios.GoalNotClamped | main.cpp:41-42 | From a stored position of 150000, 'u' writes 150050, which lies outside the declared range. |
| Scenarios.FailedReadsStillJog | main.cpp:238-248 | With every read failing, all 11 transactions (five enables, five reads, one goal write) are reported as communication failures. 'j' still writes the stored value minus 50. |

## Left out

- Terminal handling (`getch`, `kbhit`, raw mode) is left out. Keystrokes are an input sequence. When it runs out before an Escape, the run is shown as `AwaitingKey`. The source's end-of-input behaviour is not modelled: `getch` returning EOF becomes the char 0xFF, which is not Escape, so the loop would keep polling.
- The protocol layer is left out: packet framing, checksums, timeouts and the serial transport. Its results are the `replies` input. The port name, protocol version and baud rate are passed to the protocol layer (main.cpp:99, 104, 141). They do not affect which commands go out; the model keeps only whether opening the port and setting the baud rate succeeded. The bulk-read and bulk-write groups are built but never used by `main`.
- Message text is left out. Each transaction carries one `Report`. The "successfully connected" and position lines are not modelled. They depend on that report, on the kind of command and on the stored value: a clean enable prints the connected line (main.cpp:163-166), every read prints the position (main.cpp:248), and a clean disable or goal write prints nothing.
- The LED address, the data-length constants, the moving-status threshold and the unused locals (`index`, `dxl_goal_position`, `dxl_led_value`, `param_goal_position`, the add/get flags) are never read by the control flow.
- Keymap.Nudge: records the goal as the mathematical sum of the stored position and the delta. The source adds in signed 32-bit arithmetic, which is undefined for positions within 100 of the 32-bit limits. It then passes the result as an unsigned 32-bit parameter.
- Keymap.NudgeOnTheWire: covers only goals whose sum is a 32-bit value. For those, the wire word is `Bus.ToWord` of the goal and reads back unchanged. The overflowing case is undefined behaviour in the source, so nothing is claimed for it.
- The five position variables start at 0 in the source (main.cpp:121-125) and persist across passes. Each read only hands the protocol layer the variable's address (main.cpp:238-290). The protocol layer decides whether a failed read writes the variable. If it does not, the jog at main.cpp:306 uses the previous pass's value, or the initial 0. The model does not carry the variables between passes. Instead, a reply's `data` is whatever the variable holds after the read, which may be that earlier value. The model allows this but does not enforce it: nothing ties a failed reply's `data` to the value from before.
- The key is a byte. The source's conversion of `getch`'s int to `char` keeps the low byte, and every comparison is against an ASCII character.

## Notes on the source

- The managed IDs are 11 to 15 (main.cpp:30-34), not 1 to 5. The model follows the code.
- The two fatal startup paths return without closing the port (main.cpp:132-137, 145-150). The close appears only on the Escape path.

=== FILE: bus.dfy ===
/** The register-level vocabulary the controller speaks to its chain of
    servo actuators: the control-table addresses and fixed values it uses,
    the bus commands it can issue, the replies the protocol layer hands
    back, and the way a reply is classified for the operator. The protocol
    layer itself (framing, checksums, the serial transport) is not modelled:
    a reply is an input. */
module Bus {

  type Byte = x: int | 0 <= x < 0x100
  type Int32 = x: int | -0x8000_0000 <= x < 0x8000_0000

  /** A keystroke, as the byte the terminal delivers. */
  type Key = Byte

  // Control-table addresses of the actuators.
  const ADDR_TORQUE_ENABLE := 64
  const ADDR_GOAL_POSITION := 116
  const ADDR_PRESENT_POSITION := 132

  // Values written to the torque-enable register.
  const TORQUE_ENABLE: Byte := 1
  const TORQUE_DISABLE: Byte := 0

  /** The declared movable range. The jog path never consults it. */
  const MIN_POSITION := -150000
  const MAX_POSITION := 150000

  const ESC: Key := 0x1b

  /** The managed actuators, in the order every phase visits them. */
  const IDS: seq<int> := [11, 12, 13, 14, 15]

  predicate Distinct(s: seq<int>) {
    forall i, j :: 0 <= i < j < |s| ==> s[i] != s[j]
  }

  predicate Ascending(s: seq<int>) {
    forall i, j :: 0 <= i < j < |s| ==> s[i] < s[j]
  }

  /** The managed IDs name five different actuators, lowest first. */
  lemma IdsInOrder()
    ensures Ascending(IDS) && Distinct(IDS)
  {
  }

  /** Position of a managed ID in the visiting order. */
  function Slot(id: int): (i: nat)
    requires id in IDS
    ensures i < |IDS| && IDS[i] == id
  {
    if id == IDS[0] then 0
    else if id == IDS[1] then 1
    else if id == IDS[2] then 2
    else if id == IDS[3] then 3
    else 4
  }

  /** The last stored present position of each actuator, by slot. */
  type Positions = s: seq<Int32> | |s| == |IDS| witness [0, 0, 0, 0, 0]

  /** One transaction on the bus, or the final release of the port. */
  datatype Command =
    | Write1(id: int, addr: int, data: Byte)
    | Read4(id: int, addr: int)
    | Write4(id: int, addr: int, word: int)
    | Close

  /** Communication outcome of one round trip; the codes of the failures
      belong to the protocol layer and are carried opaquely. */
  datatype Comm = CommSuccess | CommFailure(code: int)

  /** What the protocol layer returns for one transaction: the
      communication outcome, the device error byte, and (for a read) the
      value left in the caller's 32-bit position variable. */
  datatype Reply = Reply(comm: Comm, error: Byte, data: Int32)

  /** How the controller reads a reply. */
  datatype Report = CommFailed(code: int) | DeviceFault(error: Byte) | Clean

  /** A communication failure is reported first and hides the device
      error byte; the device error byte is looked at only after a
      successful round trip. */
  function Classify(r: Reply): (rep: Report)
    ensures rep.CommFailed? <==> r.comm.CommFailure?
    ensures rep.CommFailed? ==> rep.code == r.comm.code
    ensures rep.DeviceFault? <==> r.comm.CommSuccess? && r.error != 0
    ensures rep.DeviceFault? ==> rep.error == r.error
    ensures rep.Clean? <==> r.comm.CommSuccess? && r.error == 0
  {
    match r.comm
    case CommFailure(code) => CommFailed(code)
    case CommSuccess => if r.error != 0 then DeviceFault(r.error) else Clean
  }

  const TWO_32 := 0x1_0000_0000
  const TWO_31 := 0x8000_0000

  /** The 32-bit word a 4-byte write puts on the bus for a signed value. */
  function ToWord(v: int): (w: nat)
    ensures w < TWO_32
    ensures (v - w) % TWO_32 == 0
  {
    v % TWO_32
  }

  /** Reading a 32-bit word back as a two's-complement position. */
  function FromWord(w: nat): (v: Int32)
    requires w < TWO_32
    ensures (w - v) % TWO_32 == 0
    ensures v < 0 <==> w >= TWO_31
  {
    if w < TWO_31 then w else w - TWO_32
  }

  /** Every 32-bit signed value survives the trip through the wire word. */
  lemma WordRoundTrip(v: Int32)
    ensures FromWord(ToWord(v)) == v
  {
  }
}

=== FILE: controller.dfy ===
/** The control loop of the jog controller as a pure function from its
    inputs (whether the port opens, whether the baud rate takes, the
    keystrokes, and the replies the bus gives) to the commands it issues,
    how it reports each reply, and how it ends.

    The k-th bus transaction of a session receives `replies(k)`. The final
    Close is the only command without a reply and always comes last, so
    the reply of `trace[k]` is `replies(k)`. */
module Controller {
  import opened Bus
  import opened Keymap

  /** How far startup got: the port did not open, the baud rate did not
      take, or the actuators were reached. */
  datatype Startup = PortFailed | BaudFailed | Started

  /** The program either returned (always with status 0) or is still
      blocked waiting for a keystroke. */
  datatype Status = Exited(code: int) | AwaitingKey

  datatype Inputs = Inputs(portOpens: bool, baudSet: bool, keys: seq<Key>, replies: nat -> Reply)

  /** The commands of a run, the report printed for each transaction
      (`reports[k]` is about `trace[k]`), and how the run ended. */
  datatype Run = Run(startup: Startup, trace: seq<Command>, reports: seq<Report>, status: Status)

  /** Writing `value` to the torque-enable register of each ID in order. */
  function Sweep(value: Byte): (cmds: seq<Command>)
    ensures |cmds| == |IDS|
  {
    seq(|IDS|, i requires 0 <= i < |IDS| => Write1(IDS[i], ADDR_TORQUE_ENABLE, value))
  }

  /** The present-position read of each ID in order. */
  function PollReads(): (cmds: seq<Command>)
    ensures |cmds| == |IDS|
  {
    seq(|IDS|, i requires 0 <= i < |IDS| => Read4(IDS[i], ADDR_PRESENT_POSITION))
  }

  /** What the five position variables hold after the reads issued from
      transaction `n` on: each read's stored value, whatever its outcome. */
  function Stored(replies: nat -> Reply, n: nat): (pos: Positions)
  {
    [replies(n).data, replies(n + 1).data, replies(n + 2).data, replies(n + 3).data, replies(n + 4).data]
  }

  /** One pass of the loop for a key other than Escape, given that key's
      binding: the reads from transaction `n` on, then the goal write of a
      bound key, computed from the positions those reads stored. */
  function Cycle(bound: Option<Jog>, replies: nat -> Reply, n: nat): (cmds: seq<Command>)
    requires bound.Some? ==> bound.value.id in IDS
    ensures |cmds| == |IDS| + (if bound.Some? then 1 else 0)
  {
    PollReads() + (if bound.Some? then [Nudge(bound.value, Stored(replies, n))] else [])
  }

  datatype LoopResult = LoopResult(cmds: seq<Command>, quit: bool)

  /** The key loop from transaction `n` on: stops at the first Escape,
      without reading or writing anything in that pass; if the keys run
      out first, the program is still waiting for the next one. */
  function Loop(table: map<Key, Jog>, keys: seq<Key>, replies: nat -> Reply, n: nat): (r: LoopResult)
    requires WellFormed(table)
    ensures r.quit <==> ESC in keys
    decreases |keys|
  {
    if |keys| == 0 then LoopResult([], false)
    else if keys[0] == ESC then LoopResult([], true)
    else
      var pass := Cycle(BindingOf(table, keys[0]), replies, n);
      var rest := Loop(table, keys[1..], replies, n + |pass|);
      assert ESC in keys <==> ESC in keys[1..] by {
        assert forall i :: 1 <= i < |keys| ==> keys[i] == keys[1..][i - 1];
      }
      LoopResult(pass + rest.cmds, rest.quit)
  }

  /** After a fatal startup failure the program waits for one key and returns. */
  function AcknowledgeAndExit(keys: seq<Key>): (s: Status)
    ensures s.Exited? <==> |keys| > 0
    ensures s.Exited? ==> s.code == 0
  {
    if |keys| > 0 then Exited(0) else AwaitingKey
  }

  /** The report of each transaction of `t`: a communication failure, a
      device fault, or nothing to say. */
  function Reports(t: seq<Command>, replies: nat -> Reply): (reps: seq<Report>)
    ensures |reps| == |t|
    ensures forall k :: 0 <= k < |t| ==> reps[k] == Classify(replies(k))
  {
    seq(|t|, k requires 0 <= k < |t| => Classify(replies(k)))
  }

  /** A whole run of the program. */
  function Session(inp: Inputs): (r: Run)
    ensures r.status.Exited? ==> r.status.code == 0
    ensures !inp.portOpens ==> r.startup == PortFailed && r.trace == []
    ensures inp.portOpens && !inp.baudSet ==> r.startup == BaudFailed && r.trace == []
    ensures inp.portOpens && inp.baudSet ==> r.startup == Started
    ensures !r.startup.Started? ==> (r.status.Exited? <==> |inp.keys| > 0)
    ensures r.startup.Started? ==> (r.status.Exited? <==> ESC in inp.keys)
    ensures r.status.Exited? && r.startup.Started? ==> |r.trace| > 0 && r.trace[|r.trace| - 1] == Close
    ensures !r.startup.Started? ==> r.reports == []
    ensures r.startup.Started? ==> |r.reports| == |r.trace| - (if r.status.Exited? then 1 else 0)
    ensures forall k :: 0 <= k < |r.reports| ==> r.reports[k] == Classify(inp.replies(k))
  {
    if !inp.portOpens then Run(PortFailed, [], [], AcknowledgeAndExit(inp.keys))
    else if !inp.baudSet then Run(BaudFailed, [], [], AcknowledgeAndExit(inp.keys))
    else
      BindingsWellFormed();
      var loop := Loop(BINDINGS, inp.keys, inp.replies, |IDS|);
      var running := Sweep(TORQUE_ENABLE) + loop.cmds;
      if loop.quit then
        var bus := running + Sweep(TORQUE_DISABLE);
        Run(Started, bus + [Close], Reports(bus, inp.replies), Exited(0))
      else
        Run(Started, running, Reports(running, inp.replies), AwaitingKey)
  }
}

=== FILE: keymap.dfy ===
/** The jog key bindings: which key nudges which actuator by how much.
    The source spells the bindings out as a ten-branch else-if chain;
    here they are one table, and TableMatchesLiteral shows the two agree. */
module Keymap {
  import opened Bus

  datatype Option<T> = None | Some(value: T)

  /** Move actuator `id` by `delta` from its present position. */
  datatype Jog = Jog(id: int, delta: int)

  /** A key table: every bound key moves a managed actuator. A map, so a
      key has at most one binding. */
  predicate WellFormed(table: map<Key, Jog>) {
    forall k :: k in table ==> table[k].id in IDS
  }

  const BINDINGS: map<Key, Jog> := map[
    'u' as int := Jog(11, 50),  'j' as int := Jog(11, -50),
    'i' as int := Jog(12, 50),  'k' as int := Jog(12, -50),
    'o' as int := Jog(13, 50),  'l' as int := Jog(13, -50),
    'p' as int := Jog(14, 50),  ';' as int := Jog(14, -50),
    '[' as int := Jog(15, 100), '\'' as int := Jog(15, -100)
  ]

  /** The controller's table only moves managed actuators, and Escape is
      not bound in it (the loop tests for Escape before any lookup). */
  lemma BindingsWellFormed()
    ensures WellFormed(BINDINGS)
    ensures ESC !in BINDINGS
  {
  }

  /** The binding of `key`, if it has one. */
  function BindingOf(table: map<Key, Jog>, key: Key): (r: Option<Jog>)
    ensures r.Some? <==> key in table
    ensures r.Some? ==> r.value == table[key]
  {
    if key in table then Some(table[key]) else None
  }

  /** The write a binding asks for: the stored position plus the delta,
      with no clamping to the declared movable range. */
  function Nudge(j: Jog, pos: Positions): (c: Command)
    requires j.id in IDS
    ensures c.Write4? && c.id == j.id && c.addr == ADDR_GOAL_POSITION
    ensures c.word - pos[Slot(j.id)] == j.delta
  {
    Write4(j.id, ADDR_GOAL_POSITION, pos[Slot(j.id)] + j.delta)
  }

  /** The dispatch chain as the source writes it, one branch per key, each
      reading its own actuator's position variable. */
  function LiteralGoalWrite(key: Key, p11: int, p12: int, p13: int, p14: int, p15: int): (w: Option<Command>)
    ensures w.Some? ==> w.value.Write4? && w.value.addr == ADDR_GOAL_POSITION && w.value.id in IDS
    ensures w.Some? ==>
      var d := w.value.word - [p11, p12, p13, p14, p15][Slot(w.value.id)];
      d == 50 || d == -50 || (w.value.id == 15 && (d == 100 || d == -100))
  {
    if key == 'u' as int then Some(Write4(11, ADDR_GOAL_POSITION, p11 + 50))
    else if key == 'j' as int then Some(Write4(11, ADDR_GOAL_POSITION, p11 - 50))
    else if key == 'i' as int then Some(Write4(12, ADDR_GOAL_POSITION, p12 + 50))
    else if key == 'k' as int then Some(Write4(12, ADDR_GOAL_POSITION, p12 - 50))
    else if key == 'o' as int then Some(Write4(13, ADDR_GOAL_POSITION, p13 + 50))
    else if key == 'l' as int then Some(Write4(13, ADDR_GOAL_POSITION, p13 - 50))
    else if key == 'p' as int then Some(Write4(14, ADDR_GOAL_POSITION, p14 + 50))
    else if key == ';' as int then Some(Write4(14, ADDR_GOAL_POSITION, p14 - 50))
    else if key == '[' as int then Some(Write4(15, ADDR_GOAL_POSITION, p15 + 100))
    else if key == '\'' as int then Some(Write4(15, ADDR_GOAL_POSITION, p15 - 100))
    else None
  }

  /** The table-driven dispatch issues exactly the write the literal
      else-if chain issues, for every key and every stored position: a key
      without a binding issues none, and a bound key issues its nudge. */
  lemma TableMatchesLiteral(key: Key, pos: Positions)
    ensures WellFormed(BINDINGS)
    ensures var b := BindingOf(BINDINGS, key);
      var w := LiteralGoalWrite(key, pos[0], pos[1], pos[2], pos[3], pos[4]);
      && (b.None? <==> w.None?)
      && (b.Some? ==> w == Some(Nudge(b.value, pos)))
  {
    BindingsWellFormed();
  }

  /** On the wire, a goal write carries the 32-bit word of its value.
      Whenever the stored position plus the delta is a 32-bit value, that
      word, read as a signed 32-bit value, equals the sum (the source's
      signed addition is undefined otherwise). */
  lemma NudgeOnTheWire(j: Jog, pos: Positions)
    requires j.id in IDS
    requires -TWO_31 <= pos[Slot(j.id)] + j.delta < TWO_31
    ensures ToWord(Nudge(j, pos).word) < TWO_32
    ensures FromWord(ToWord(Nudge(j, pos).word)) == pos[Slot(j.id)] + j.delta
  {
    WordRoundTrip(pos[Slot(j.id)] + j.delta);
  }
}

=== FILE: properties.dfy ===
/** Trace properties of the jog controller: what a pass of the loop issues,
    how many commands of each kind a whole run issues and in what order,
    where every goal value comes from, and that no reply from the bus ever
    changes which commands go out. */
module Properties {
  import opened Bus
  import opened Keymap
  import opened Controller

  /** The keys the loop actually acts on: those before the first Escape. */
  function Consumed(keys: seq<Key>): (c: seq<Key>)
    ensures c <= keys
    ensures ESC !in c
    ensures |c| < |keys| ==> keys[|c|] == ESC
    decreases |keys|
  {
    if |keys| == 0 || keys[0] == ESC then [] else [keys[0]] + Consumed(keys[1..])
  }

  /** How many of `keys` have a binding in `table`. */
  function BoundKeys(table: map<Key, Jog>, keys: seq<Key>): (m: nat)
    decreases |keys|
  {
    if |keys| == 0 then 0
    else (if keys[0] in table then 1 else 0) + BoundKeys(table, keys[1..])
  }

  /** How many `Read4` commands `t` holds, whatever their address. */
  function Reads(t: seq<Command>): (m: nat)
    decreases |t|
  {
    if |t| == 0 then 0 else (if t[0].Read4? then 1 else 0) + Reads(t[1..])
  }

  /** How many `Write4` commands `t` holds, whatever their address. */
  function GoalWrites(t: seq<Command>): (m: nat)
    decreases |t|
  {
    if |t| == 0 then 0 else (if t[0].Write4? then 1 else 0) + GoalWrites(t[1..])
  }

  lemma {:induction false} TallyConcat(a: seq<Command>, b: seq<Command>)
    ensures Reads(a + b) == Reads(a) + Reads(b)
    ensures GoalWrites(a + b) == GoalWrites(a) + GoalWrites(b)
    decreases |a|
  {
    if |a| == 0 {
      assert a + b == b;
    } else {
      assert (a + b)[1..] == a[1..] + b;
      TallyConcat(a[1..], b);
    }
  }

  /** Every command of `t` is a present-position read or a goal-position
      write, and addresses a managed actuator. */
  predicate OnlyReadsAndGoals(t: seq<Command>) {
    forall i :: 0 <= i < |t| ==>
      && (t[i].Read4? || t[i].Write4?)
      && t[i].id in IDS
      && t[i].addr == (if t[i].Read4? then ADDR_PRESENT_POSITION else ADDR_GOAL_POSITION)
  }

  /** The command with the value of a goal write blanked out: what is
      left when the replies are not known. */
  function Shape(c: Command): (s: Command) {
    if c.Write4? then Write4(c.id, c.addr, 0) else c
  }

  /** Two traces that issue the same commands, except possibly for the
      values of their goal writes. */
  predicate SameShape(t: seq<Command>, u: seq<Command>) {
    |t| == |u| && forall k :: 0 <= k < |t| ==> Shape(t[k]) == Shape(u[k])
  }

  /** A torque sweep, written out as the source writes it. */
  lemma SweepIsLiteral(value: Byte)
    ensures Sweep(value) == [Write1(11, 64, value), Write1(12, 64, value), Write1(13, 64, value),
                             Write1(14, 64, value), Write1(15, 64, value)]
  {
  }

  /** One pass of the loop: the five present-position reads in ascending
      ID order, and then, only for a bound key, exactly one goal write to
      that key's actuator whose value is what this pass's read of that
      actuator stored plus the key's delta. */
  lemma CycleShape(bound: Option<Jog>, replies: nat -> Reply, n: nat)
    requires bound.Some? ==> bound.value.id in IDS
    ensures var t := Cycle(bound, replies, n);
      && (forall i :: 0 <= i < |IDS| ==> t[i] == Read4(IDS[i], ADDR_PRESENT_POSITION))
      && (bound.Some? ==>
            t[|IDS|] == Write4(bound.value.id, ADDR_GOAL_POSITION,
                               replies(n + Slot(bound.value.id)).data + bound.value.delta))
  {
  }

  /** After the reads of a pass, the position variable of each actuator
      holds what the read addressed to that actuator left in it. */
  lemma StoredHoldsReads(replies: nat -> Reply, n: nat)
    ensures forall i :: 0 <= i < |IDS| ==>
      PollReads()[i].id == IDS[i] && Stored(replies, n)[i] == replies(n + i).data
  {
  }

  lemma OnlyReadsAndGoalsConcat(a: seq<Command>, b: seq<Command>)
    requires OnlyReadsAndGoals(a) && OnlyReadsAndGoals(b)
    ensures OnlyReadsAndGoals(a + b)
  {
  }

  /** A pass issues the five reads and then exactly what the source's
      else-if chain issues for its key, from the positions this pass
      stored. */
  lemma PassMatchesSourceChain(key: Key, replies: nat -> Reply, n: nat)
    ensures WellFormed(BINDINGS)
    ensures var p := Stored(replies, n);
      Cycle(BindingOf(BINDINGS, key), replies, n) == PollReads() +
        match LiteralGoalWrite(key, p[0], p[1], p[2], p[3], p[4])
        case Some(c) => [c]
        case None => []
  {
  }

  /** Nothing the loop issues touches the torque register or the port. */
  lemma {:induction false} LoopIssuesOnlyReadsAndGoals(table: map<Key, Jog>, keys: seq<Key>, replies: nat -> Reply, n: nat)
    requires WellFormed(table)
    ensures OnlyReadsAndGoals(Loop(table, keys, replies, n).cmds)
    decreases |keys|
  {
    if |keys| > 0 && keys[0] != ESC {
      var bound := BindingOf(table, keys[0]);
      var pass := Cycle(bound, replies, n);
      var rest := Loop(table, keys[1..], replies, n + |pass|).cmds;
      assert Loop(table, keys, replies, n).cmds == pass + rest;
      CycleShape(bound, replies, n);
      LoopIssuesOnlyReadsAndGoals(table, keys[1..], replies, n + |pass|);
      OnlyReadsAndGoalsConcat(pass, rest);
    }
  }

  /** The loop acts on the keys before the first Escape and on nothing after it. */
  lemma {:induction false} LoopStopsAtEscape(table: map<Key, Jog>, keys: seq<Key>, replies: nat -> Reply, n: nat)
    requires WellFormed(table)
    ensures Loop(table, keys, replies, n).cmds == Loop(table, Consumed(keys), replies, n).cmds
    decreases |keys|
  {
    if |keys| > 0 && keys[0] != ESC {
      LoopStopsAtEscape(table, keys[1..], replies, n + |Cycle(BindingOf(table, keys[0]), replies, n)|);
      LoopStopsAtEscapeStep(table, keys, replies, n);
    }
  }

  lemma LoopStopsAtEscapeStep(table: map<Key, Jog>, keys: seq<Key>, replies: nat -> Reply, n: nat)
    requires WellFormed(table)
    requires |keys| > 0 && keys[0] != ESC
    requires var m := n + |Cycle(BindingOf(table, keys[0]), replies, n)|;
      Loop(table, keys[1..], replies, m).cmds == Loop(table, Consumed(keys[1..]), replies, m).cmds
    ensures Loop(table, keys, replies, n).cmds == Loop(table, Consumed(keys), replies, n).cmds
  {
    var c := Consumed(keys);
    assert c[0] == keys[0] && c[1..] == Consumed(keys[1..]);
    LoopUnfold(table, keys, replies, n);
    LoopUnfold(table, c, replies, n);
  }


  /** One pass issues five reads, and one goal write exactly when the key
      is bound. */
  lemma CycleCounts(bound: Option<Jog>, replies: nat -> Reply, n: nat)
    requires bound.Some? ==> bound.value.id in IDS
    ensures Reads(Cycle(bound, replies, n)) == |IDS|
    ensures GoalWrites(Cycle(bound, replies, n)) == if bound.Some? then 1 else 0
  {
    var jog := if bound.Some? then [Nudge(bound.value, Stored(replies, n))] else [];
    var p := PollReads();
    assert Cycle(bound, replies, n) == p + jog;
    assert p == [Read4(11, 132), Read4(12, 132), Read4(13, 132), Read4(14, 132), Read4(15, 132)];
    assert Reads(p) == 5 && GoalWrites(p) == 0;
    TallyConcat(p, jog);
  }

  /** Over keys without Escape the loop issues five reads per key and one
      goal write per bound key. */
  lemma {:induction false} LoopCounts(table: map<Key, Jog>, keys: seq<Key>, replies: nat -> Reply, n: nat)
    requires WellFormed(table)
    requires ESC !in keys
    ensures Reads(Loop(table, keys, replies, n).cmds) == |IDS| * |keys|
    ensures GoalWrites(Loop(table, keys, replies, n).cmds) == BoundKeys(table, keys)
    decreases |keys|
  {
    if |keys| > 0 {
      var bound := BindingOf(table, keys[0]);
      var pass := Cycle(bound, replies, n);
      var rest := Loop(table, keys[1..], replies, n + |pass|).cmds;
      assert Loop(table, keys, replies, n).cmds == pass + rest;
      CycleCounts(bound, replies, n);
      assert ESC !in keys[1..] by {
        assert forall i :: 0 <= i < |keys| - 1 ==> keys[1..][i] == keys[i + 1];
      }
      LoopCounts(table, keys[1..], replies, n + |pass|);
      TallyConcat(pass, rest);
    }
  }

  /** The goal write at index `k` of `t` (transaction `base + k`), if there
      is one, comes right after the five reads of its pass and moves a
      managed actuator by the delta of a binding of `table`, starting from
      what this pass's read of that actuator stored. */
  predicate GoalFollowsReads(table: map<Key, Jog>, t: seq<Command>, replies: nat -> Reply, base: nat, k: nat)
    requires k < |t|
  {
    t[k].Write4? ==>
      && |IDS| <= k
      && t[k].addr == ADDR_GOAL_POSITION
      && t[k].id in IDS
      && t[k - |IDS| .. k] == PollReads()
      && Jog(t[k].id, t[k].word - replies(base + k - |IDS| + Slot(t[k].id)).data) in table.Values
  }

  predicate GoalsFollowReads(table: map<Key, Jog>, t: seq<Command>, replies: nat -> Reply, base: nat) {
    forall k: nat :: k < |t| ==> GoalFollowsReads(table, t, replies, base, k)
  }

  lemma GoalFollowsReadsShift(table: map<Key, Jog>, a: seq<Command>, b: seq<Command>, replies: nat -> Reply, base: nat, j: nat)
    requires j < |b|
    requires GoalFollowsReads(table, b, replies, base + |a|, j)
    ensures GoalFollowsReads(table, a + b, replies, base, |a| + j)
  {
  }

  lemma GoalsFollowReadsConcat(table: map<Key, Jog>, a: seq<Command>, b: seq<Command>, replies: nat -> Reply, base: nat)
    requires GoalsFollowReads(table, a, replies, base)
    requires GoalsFollowReads(table, b, replies, base + |a|)
    ensures GoalsFollowReads(table, a + b, replies, base)
  {
    var t := a + b;
    forall k: nat | k < |t|
      ensures GoalFollowsReads(table, t, replies, base, k)
    {
      if k < |a| {
        assert t[k] == a[k];
        assert GoalFollowsReads(table, a, replies, base, k);
        if a[k].Write4? {
          assert t[k - |IDS| .. k] == a[k - |IDS| .. k];
        }
      } else {
        GoalFollowsReadsShift(table, a, b, replies, base, k - |a|);
      }
    }
  }

  /** A pass's goal write follows its reads. */
  lemma CycleGoalsFollowReads(table: map<Key, Jog>, key: Key, replies: nat -> Reply, n: nat)
    requires WellFormed(table)
    ensures GoalsFollowReads(table, Cycle(BindingOf(table, key), replies, n), replies, n)
  {
  }

  /** Every goal write of the loop follows the reads of its own pass and
      is a binding's delta applied to the position that pass read. */
  lemma {:induction false} LoopGoalsFollowReads(table: map<Key, Jog>, keys: seq<Key>, replies: nat -> Reply, n: nat)
    requires WellFormed(table)
    ensures GoalsFollowReads(table, Loop(table, keys, replies, n).cmds, replies, n)
    decreases |keys|
  {
    if |keys| > 0 && keys[0] != ESC {
      var pass := Cycle(BindingOf(table, keys[0]), replies, n);
      var rest := Loop(table, keys[1..], replies, n + |pass|).cmds;
      assert Loop(table, keys, replies, n).cmds == pass + rest;
      CycleGoalsFollowReads(table, keys[0], replies, n);
      LoopGoalsFollowReads(table, keys[1..], replies, n + |pass|);
      GoalsFollowReadsConcat(table, pass, rest, replies, n);
    }
  }

  lemma SameShapeConcat(a1: seq<Command>, a2: seq<Command>, b1: seq<Command>, b2: seq<Command>)
    requires SameShape(a1, a2) && SameShape(b1, b2)
    ensures SameShape(a1 + b1, a2 + b2)
  {
  }

  /** A pass issues the same commands whatever the bus replies, except
      for the value of its goal write. */
  lemma CycleShapeIgnoresReplies(bound: Option<Jog>, r1: nat -> Reply, r2: nat -> Reply, n: nat)
    requires bound.Some? ==> bound.value.id in IDS
    ensures SameShape(Cycle(bound, r1, n), Cycle(bound, r2, n))
  {
  }

  /** The loop issues the same commands whatever the bus replies, except
      for the values of its goal writes. */
  lemma {:induction false} LoopShapeIgnoresReplies(table: map<Key, Jog>, keys: seq<Key>, r1: nat -> Reply, r2: nat -> Reply, n: nat)
    requires WellFormed(table)
    ensures SameShape(Loop(table, keys, r1, n).cmds, Loop(table, keys, r2, n).cmds)
    decreases |keys|
  {
    if |keys| > 0 && keys[0] != ESC {
      var bound := BindingOf(table, keys[0]);
      var p1 := Cycle(bound, r1, n);
      var p2 := Cycle(bound, r2, n);
      var t1 := Loop(table, keys[1..], r1, n + |p1|).cmds;
      var t2 := Loop(table, keys[1..], r2, n + |p2|).cmds;
      assert Loop(table, keys, r1, n).cmds == p1 + t1;
      assert Loop(table, keys, r2, n).cmds == p2 + t2;
      CycleShapeIgnoresReplies(bound, r1, r2, n);
      LoopShapeIgnoresReplies(table, keys[1..], r1, r2, n + |p1|);
      SameShapeConcat(p1, p2, t1, t2);
    }
  }

  /** A key other than Escape is answered by its pass, then the loop goes
      on with the remaining keys from the transaction after that pass. */
  lemma LoopUnfold(table: map<Key, Jog>, keys: seq<Key>, replies: nat -> Reply, n: nat)
    requires WellFormed(table)
    requires |keys| > 0 && keys[0] != ESC
    ensures var pass := Cycle(BindingOf(table, keys[0]), replies, n);
      Loop(table, keys, replies, n).cmds == pass + Loop(table, keys[1..], replies, n + |pass|).cmds
  {
  }

  lemma EscapeFreeTail(a: seq<Key>)
    requires |a| > 0 && ESC !in a
    ensures a[0] != ESC && ESC !in a[1..]
  {
    assert forall i :: 0 <= i < |a[1..]| ==> a[1..][i] == a[i + 1];
  }

  /** Where the pass for the p-th key starts: after five reads for every
      earlier key and one goal write for every earlier bound key. */
  function PassStart(table: map<Key, Jog>, keys: seq<Key>, p: nat): (o: nat)
    requires p <= |keys|
  {
    |IDS| * p + BoundKeys(table, keys[..p])
  }

  /** The pass for `key`, reading from transaction `n + o` on, sits at
      offset `o` of `t`. */
  predicate PassAt(table: map<Key, Jog>, t: seq<Command>, key: Key, replies: nat -> Reply, n: nat, o: nat)
    requires WellFormed(table)
  {
    var pass := Cycle(BindingOf(table, key), replies, n + o);
    o + |pass| <= |t| && t[o..o + |pass|] == pass
  }

  /** A pass found in `rest` is found in `first + rest`, shifted by the
      length of `first`. */
  lemma PassAtShift(table: map<Key, Jog>, first: seq<Command>, rest: seq<Command>, key: Key, replies: nat -> Reply, n: nat, m: nat, o': nat, o: nat)
    requires WellFormed(table)
    requires PassAt(table, rest, key, replies, m, o')
    requires o == |first| + o' && n + o == m + o'
    ensures PassAt(table, first + rest, key, replies, n, o)
  {
    var pass := Cycle(BindingOf(table, key), replies, m + o');
    var t := first + rest;
    assert t[o..o + |pass|] == rest[o'..o' + |pass|];
  }

  /** A pass found in `t` is still found when more commands follow. */
  lemma PassAtPrefix(table: map<Key, Jog>, t: seq<Command>, u: seq<Command>, key: Key, replies: nat -> Reply, n: nat, o: nat)
    requires WellFormed(table)
    requires PassAt(table, t, key, replies, n, o)
    ensures PassAt(table, t + u, key, replies, n, o)
  {
    var pass := Cycle(BindingOf(table, key), replies, n + o);
    assert (t + u)[o..o + |pass|] == t[o..o + |pass|];
  }

  /** A pass found at offset `o` is, command by command, the five reads
      and, for a bound key, the goal write for that key's own binding. */
  lemma PassAtCommands(table: map<Key, Jog>, t: seq<Command>, key: Key, replies: nat -> Reply, n: nat, o: nat)
    requires WellFormed(table)
    requires PassAt(table, t, key, replies, n, o)
    ensures o + |IDS| <= |t|
    ensures forall i :: 0 <= i < |IDS| ==> t[o + i] == Read4(IDS[i], ADDR_PRESENT_POSITION)
    ensures key in table ==>
      var j := table[key];
      o + |IDS| < |t| && t[o + |IDS|] == Write4(j.id, ADDR_GOAL_POSITION, replies(n + o + Slot(j.id)).data + j.delta)
  {
    var pass := Cycle(BindingOf(table, key), replies, n + o);
    CycleShape(BindingOf(table, key), replies, n + o);
    forall i | 0 <= i < |pass|
      ensures t[o + i] == pass[i]
    {
      assert t[o..o + |pass|][i] == t[o + i];
    }
  }

  lemma LoopFirstPass(table: map<Key, Jog>, keys: seq<Key>, replies: nat -> Reply, n: nat)
    requires WellFormed(table)
    requires |keys| > 0 && keys[0] != ESC
    ensures PassAt(table, Loop(table, keys, replies, n).cmds, keys[0], replies, n, PassStart(table, keys, 0))
  {
    assert keys[..0] == [];
    LoopUnfold(table, keys, replies, n);
    var first := Cycle(BindingOf(table, keys[0]), replies, n);
    var rest := Loop(table, keys[1..], replies, n + |first|).cmds;
    assert (first + rest)[0..|first|] == first;
  }

  lemma PassStartStep(table: map<Key, Jog>, keys: seq<Key>, p: nat)
    requires 0 < p < |keys|
    ensures PassStart(table, keys, p) == |IDS| + (if keys[0] in table then 1 else 0) + PassStart(table, keys[1..], p - 1)
  {
    assert keys[..p][0] == keys[0] && keys[..p][1..] == keys[1..][..p - 1];
  }

  lemma LoopLaterPass(table: map<Key, Jog>, keys: seq<Key>, replies: nat -> Reply, n: nat, p: nat)
    requires WellFormed(table)
    requires 0 < p < |keys| && keys[0] != ESC
    requires var m := n + |Cycle(BindingOf(table, keys[0]), replies, n)|;
      PassAt(table, Loop(table, keys[1..], replies, m).cmds, keys[1..][p - 1], replies, m, PassStart(table, keys[1..], p - 1))
    ensures PassAt(table, Loop(table, keys, replies, n).cmds, keys[p], replies, n, PassStart(table, keys, p))
  {
    LoopUnfold(table, keys, replies, n);
    PassStartStep(table, keys, p);
    var first := Cycle(BindingOf(table, keys[0]), replies, n);
    var m := n + |first|;
    var rest := Loop(table, keys[1..], replies, m).cmds;
    assert keys[1..][p - 1] == keys[p];
    PassAtShift(table, first, rest, keys[p], replies, n, m, PassStart(table, keys[1..], p - 1), PassStart(table, keys, p));
  }

  /** The p-th key before any Escape gets its own pass. It starts after
      five reads for every earlier key and one goal write for every
      earlier bound key, and it is exactly the pass for that key's
      binding, reading from the transaction it has reached. */
  lemma {:induction false} LoopPassOfKey(table: map<Key, Jog>, keys: seq<Key>, replies: nat -> Reply, n: nat, p: nat)
    requires WellFormed(table)
    requires p < |keys| && ESC !in keys[..p + 1]
    ensures PassAt(table, Loop(table, keys, replies, n).cmds, keys[p], replies, n, PassStart(table, keys, p))
    decreases p
  {
    assert keys[0] == keys[..p + 1][0];
    if p == 0 {
      LoopFirstPass(table, keys, replies, n);
    } else {
      assert keys[1..][..p] == keys[..p + 1][1..];
      EscapeFreeTail(keys[..p + 1]);
      LoopPassOfKey(table, keys[1..], replies, n + |Cycle(BindingOf(table, keys[0]), replies, n)|, p - 1);
      LoopLaterPass(table, keys, replies, n, p);
    }
  }

  /** The command trace of a started session: the enable sweep, the
      passes for the keys before the first Escape, and, if an Escape came,
      the disable sweep and the close. */
  lemma SessionDecomposes(inp: Inputs)
    requires inp.portOpens && inp.baudSet
    ensures WellFormed(BINDINGS) && Session(inp).trace ==
      Sweep(TORQUE_ENABLE)
      + Loop(BINDINGS, Consumed(inp.keys), inp.replies, |IDS|).cmds
      + (if ESC in inp.keys then Sweep(TORQUE_DISABLE) + [Close] else [])
  {
    BindingsWellFormed();
    LoopStopsAtEscape(BINDINGS, inp.keys, inp.replies, |IDS|);
  }
}

=== FILE: scenarios.dfy ===
/** Worked runs: concrete keys and replies, and the exact trace each gives. */
module Scenarios {
  import opened Bus
  import opened Keymap
  import opened Controller

  /** Every transaction succeeds and every read finds `position`. */
  function Steady(position: Int32): (replies: nat -> Reply) {
    k => Reply(CommSuccess, 0, position)
  }

  const ENABLES := [Write1(11, 64, 1), Write1(12, 64, 1), Write1(13, 64, 1), Write1(14, 64, 1), Write1(15, 64, 1)]
  const POLL := [Read4(11, 132), Read4(12, 132), Read4(13, 132), Read4(14, 132), Read4(15, 132)]
  const DISABLES := [Write1(11, 64, 0), Write1(12, 64, 0), Write1(13, 64, 0), Write1(14, 64, 0), Write1(15, 64, 0)]

  /** The session for a single non-Escape key, with its one pass spelled out. */
  lemma OneKey(key: Key, replies: nat -> Reply, quit: bool)
    requires key != ESC
    ensures WellFormed(BINDINGS)
    ensures var keys := if quit then [key, ESC] else [key];
      var r := Session(Inputs(true, true, keys, replies));
      var pass := Cycle(BindingOf(BINDINGS, key), replies, |IDS|);
      r.trace == ENABLES + pass + (if quit then DISABLES + [Close] else [])
      && r.status == (if quit then Exited(0) else AwaitingKey)
  {
    BindingsWellFormed();
    var keys := if quit then [key, ESC] else [key];
    var pass := Cycle(BindingOf(BINDINGS, key), replies, |IDS|);
    assert keys[0] == key && keys[1..] == (if quit then [ESC] else []);
    assert Loop(BINDINGS, keys, replies, |IDS|).cmds == pass + Loop(BINDINGS, keys[1..], replies, |IDS| + |pass|).cmds;
    assert Loop(BINDINGS, keys[1..], replies, |IDS| + |pass|).cmds == [];
    assert Sweep(TORQUE_ENABLE) == ENABLES && Sweep(TORQUE_DISABLE) == DISABLES;
  }

  /** The pass for a bound key from steady replies. */
  lemma SteadyPass(key: Key, position: Int32)
    requires key in BINDINGS
    ensures WellFormed(BINDINGS)
    ensures Cycle(BindingOf(BINDINGS, key), Steady(position), |IDS|) ==
      POLL + [Write4(BINDINGS[key].id, ADDR_GOAL_POSITION, position + BINDINGS[key].delta)]
  {
  }

  /** 'u' with actuator 11 at 1000, then Escape: a goal of 1050 for 11,
      then shutdown. */
  lemma JogUpThenQuit()
    ensures var r := Session(Inputs(true, true, ['u' as int, ESC], Steady(1000)));
      r.trace == ENABLES + POLL + [Write4(11, ADDR_GOAL_POSITION, 1050)] + DISABLES + [Close]
      && r.status == Exited(0)
  {
    OneKey('u' as int, Steady(1000), true);
    SteadyPass('u' as int, 1000);
  }

  /** '[' with actuator 15 at -200: a goal of -100 for 15. */
  lemma BracketNudgesFifteen()
    ensures var r := Session(Inputs(true, true, ['[' as int], Steady(-200)));
      r.trace == ENABLES + POLL + [Write4(15, ADDR_GOAL_POSITION, -100)] && r.status == AwaitingKey
  {
    OneKey('[' as int, Steady(-200), false);
    SteadyPass('[' as int, -200);
  }

  /** An unbound key still polls all five actuators but writes no goal. */
  lemma UnboundKeyOnlyPolls()
    ensures var r := Session(Inputs(true, true, ['x' as int], Steady(0)));
      r.trace == ENABLES + POLL && r.status == AwaitingKey
  {
    OneKey('x' as int, Steady(0), false);
    assert PollReads() == POLL;
  }

  /** The goal is not clamped: from the top of the declared range, 'u'
      asks for a position beyond it. */
  lemma GoalNotClamped()
    ensures var r := Session(Inputs(true, true, ['u' as int], Steady(MAX_POSITION)));
      |r.trace| == 11 && r.trace[10] == Write4(11, ADDR_GOAL_POSITION, MAX_POSITION + 50)
      && r.trace[10].word > MAX_POSITION
  {
    OneKey('u' as int, Steady(MAX_POSITION), false);
    SteadyPass('u' as int, MAX_POSITION);
  }

  /** Every read failing on the bus: each failure is reported, and the jog
      still goes out, from whatever the position variable held. */
  lemma FailedReadsStillJog()
    ensures var r := Session(Inputs(true, true, ['j' as int], k => Reply(CommFailure(-3001), 0, 7)));
      r.trace == ENABLES + POLL + [Write4(11, ADDR_GOAL_POSITION, -43)]
      && |r.reports| == 11
      && (forall k :: 0 <= k < |r.reports| ==> r.reports[k] == CommFailed(-3001))
      && r.status == AwaitingKey
  {
    var replies: nat -> Reply := k => Reply(CommFailure(-3001), 0, 7);
    OneKey('j' as int, replies, false);
    BindingsWellFormed();
    assert PollReads() == POLL;
    assert Stored(replies, |IDS|) == [7, 7, 7, 7, 7];
  }
}

=== FILE: session.dfy ===
/** Properties of whole runs: the startup and shutdown sweeps, what the
    loop contributes in between, the totals, where each goal value comes
    from, that replies never change which commands go out, and worked
    examples. */
module SessionProperties {
  import opened Bus
  import opened Keymap
  import opened Controller
  import opened Properties

  /** A failed port open or baud-rate change puts nothing on the bus (not
      even a close), reports nothing, and ends with status 0 once a key
      arrives. */
  lemma FatalStartupIssuesNothing(inp: Inputs)
    requires !inp.portOpens || !inp.baudSet
    ensures Session(inp).trace == [] && Session(inp).reports == []
    ensures Session(inp).status == if |inp.keys| > 0 then Exited(0) else AwaitingKey
  {
  }

  /** Torque writes and the close are neither reads nor goal writes. */
  lemma {:induction false} NoTally(t: seq<Command>)
    requires forall k :: 0 <= k < |t| ==> t[k].Write1? || t[k].Close?
    ensures Reads(t) == 0 && GoalWrites(t) == 0
    decreases |t|
  {
    if |t| > 0 {
      NoTally(t[1..]);
    }
  }

  lemma SweepTallies(value: Byte)
    ensures Reads(Sweep(value)) == 0 && GoalWrites(Sweep(value)) == 0
    ensures Reads(Sweep(value) + [Close]) == 0 && GoalWrites(Sweep(value) + [Close]) == 0
  {
    NoTally(Sweep(value));
    NoTally(Sweep(value) + [Close]);
  }

  lemma SplitThree(t: seq<Command>, a: seq<Command>, b: seq<Command>, c: seq<Command>)
    requires t == a + b + c
    ensures |t| == |a| + |b| + |c|
    ensures forall k :: 0 <= k < |a| ==> t[k] == a[k]
    ensures forall k :: |a| <= k < |a| + |b| ==> t[k] == b[k - |a|]
    ensures forall k :: |a| + |b| <= k < |t| ==> t[k] == c[k - |a| - |b|]
  {
  }

  /** The pieces of a started session's trace, and where each piece sits. */
  lemma Pieces(inp: Inputs)
    requires inp.portOpens && inp.baudSet
    ensures WellFormed(BINDINGS)
    ensures var t := Session(inp).trace;
      var loop := Loop(BINDINGS, Consumed(inp.keys), inp.replies, |IDS|).cmds;
      && |t| == |IDS| + |loop| + (if ESC in inp.keys then |IDS| + 1 else 0)
      && (forall k :: 0 <= k < |IDS| ==> t[k] == Sweep(TORQUE_ENABLE)[k])
      && (forall k :: |IDS| <= k < |IDS| + |loop| ==> t[k] == loop[k - |IDS|])
      && (ESC in inp.keys ==>
            (forall k :: |IDS| + |loop| <= k < |t| - 1 ==> t[k] == Sweep(TORQUE_DISABLE)[k - |IDS| - |loop|])
            && t[|t| - 1] == Close)
  {
    SessionDecomposes(inp);
    var d: seq<Command> := if ESC in inp.keys then Sweep(TORQUE_DISABLE) + [Close] else [];
    SplitThree(Session(inp).trace, Sweep(TORQUE_ENABLE), Loop(BINDINGS, Consumed(inp.keys), inp.replies, |IDS|).cmds, d);
  }

  /** Torque is enabled first, on 11 through 15 in that order, and
      never again. */
  lemma TorqueEnabledOnceEach(inp: Inputs)
    requires inp.portOpens && inp.baudSet
    ensures var t := Session(inp).trace;
      && |IDS| <= |t|
      && (forall i :: 0 <= i < |IDS| ==> t[i] == Write1(IDS[i], ADDR_TORQUE_ENABLE, TORQUE_ENABLE))
      && (forall k :: |IDS| <= k < |t| ==> !(t[k].Write1? && t[k].data == TORQUE_ENABLE))
  {
    Pieces(inp);
    var t := Session(inp).trace;
    var loop := Loop(BINDINGS, Consumed(inp.keys), inp.replies, |IDS|).cmds;
    LoopIssuesOnlyReadsAndGoals(BINDINGS, Consumed(inp.keys), inp.replies, |IDS|);
    forall k | |IDS| <= k < |t|
      ensures !(t[k].Write1? && t[k].data == TORQUE_ENABLE)
    {
      if k < |IDS| + |loop| {
        assert loop[k - |IDS|].Read4? || loop[k - |IDS|].Write4?;
      }
    }
  }

  /** The port is closed exactly when an Escape arrives, once, as the last
      command; right before it torque is disabled on 11 through 15 in that
      order, and never anywhere else. */
  lemma ShutdownDisablesThenCloses(inp: Inputs)
    requires inp.portOpens && inp.baudSet
    ensures var t := Session(inp).trace;
      && (forall k :: 0 <= k < |t| ==> (t[k].Close? <==> ESC in inp.keys && k == |t| - 1))
      && (forall k :: 0 <= k < |t| && t[k].Write1? && t[k].data == TORQUE_DISABLE ==>
            ESC in inp.keys && |t| - 1 - |IDS| <= k)
      && (ESC in inp.keys ==>
            && 2 * |IDS| + 1 <= |t|
            && forall i :: 0 <= i < |IDS| ==>
                 t[|t| - 1 - |IDS| + i] == Write1(IDS[i], ADDR_TORQUE_ENABLE, TORQUE_DISABLE))
  {
    Pieces(inp);
    var t := Session(inp).trace;
    var loop := Loop(BINDINGS, Consumed(inp.keys), inp.replies, |IDS|).cmds;
    LoopIssuesOnlyReadsAndGoals(BINDINGS, Consumed(inp.keys), inp.replies, |IDS|);
    forall k | 0 <= k < |t|
      ensures t[k].Close? <==> ESC in inp.keys && k == |t| - 1
      ensures t[k].Write1? && t[k].data == TORQUE_DISABLE ==> ESC in inp.keys && |t| - 1 - |IDS| <= k
    {
      if |IDS| <= k < |IDS| + |loop| {
        assert loop[k - |IDS|].Read4? || loop[k - |IDS|].Write4?;
      }
    }
  }

  /** Five reads per key acted on, and one goal write per bound key acted
      on; keys from the first Escape on are not acted on. */
  lemma SessionCounts(inp: Inputs)
    requires inp.portOpens && inp.baudSet
    ensures Reads(Session(inp).trace) == |IDS| * |Consumed(inp.keys)|
    ensures GoalWrites(Session(inp).trace) == BoundKeys(BINDINGS, Consumed(inp.keys))
  {
    SessionDecomposes(inp);
    var e := Sweep(TORQUE_ENABLE);
    var loop := Loop(BINDINGS, Consumed(inp.keys), inp.replies, |IDS|).cmds;
    var d: seq<Command> := if ESC in inp.keys then Sweep(TORQUE_DISABLE) + [Close] else [];
    SweepTallies(TORQUE_ENABLE);
    SweepTallies(TORQUE_DISABLE);
    LoopCounts(BINDINGS, Consumed(inp.keys), inp.replies, |IDS|);
    TallyConcat(e, loop);
    TallyConcat(e + loop, d);
  }

  /** An Escape as the first key: enable, disable, close, and nothing else. */
  lemma EscapeFirstShutsDown(inp: Inputs)
    requires inp.portOpens && inp.baudSet && |inp.keys| > 0 && inp.keys[0] == ESC
    ensures Session(inp).trace ==
      [Write1(11, 64, 1), Write1(12, 64, 1), Write1(13, 64, 1), Write1(14, 64, 1), Write1(15, 64, 1),
       Write1(11, 64, 0), Write1(12, 64, 0), Write1(13, 64, 0), Write1(14, 64, 0), Write1(15, 64, 0),
       Close]
    ensures Session(inp).status == Exited(0)
  {
    SweepIsLiteral(TORQUE_ENABLE);
    SweepIsLiteral(TORQUE_DISABLE);
  }

  lemma NoGoalsFollowReads(table: map<Key, Jog>, t: seq<Command>, replies: nat -> Reply, base: nat)
    requires forall k :: 0 <= k < |t| ==> !t[k].Write4?
    ensures GoalsFollowReads(table, t, replies, base)
  {
  }

  /** Every goal write of a session follows the five reads of its own pass
      and moves a bound actuator by its key's delta from the position that
      pass read; the stored value is used whether or not the read
      succeeded. */
  lemma SessionGoalsFollowReads(inp: Inputs)
    requires inp.portOpens && inp.baudSet
    ensures GoalsFollowReads(BINDINGS, Session(inp).trace, inp.replies, 0)
  {
    SessionDecomposes(inp);
    var e := Sweep(TORQUE_ENABLE);
    var loop := Loop(BINDINGS, Consumed(inp.keys), inp.replies, |IDS|).cmds;
    var d: seq<Command> := if ESC in inp.keys then Sweep(TORQUE_DISABLE) + [Close] else [];
    SweepIsLiteral(TORQUE_ENABLE);
    SweepIsLiteral(TORQUE_DISABLE);
    NoGoalsFollowReads(BINDINGS, e, inp.replies, 0);
    NoGoalsFollowReads(BINDINGS, d, inp.replies, |e| + |loop|);
    LoopGoalsFollowReads(BINDINGS, Consumed(inp.keys), inp.replies, |IDS|);
    GoalsFollowReadsConcat(BINDINGS, e, loop, inp.replies, 0);
    GoalsFollowReadsConcat(BINDINGS, e + loop, d, inp.replies, 0);
  }

  /** The p-th key before any Escape is answered by its own pass: after
      the enables and after five reads for every earlier key and a goal
      write for every earlier bound key, the trace holds exactly the pass
      for that key's binding, computed from the replies at those
      positions. */
  lemma SessionPassOfKey(inp: Inputs, p: nat)
    requires inp.portOpens && inp.baudSet
    requires p < |Consumed(inp.keys)|
    ensures WellFormed(BINDINGS)
    ensures PassAt(BINDINGS, Session(inp).trace, inp.keys[p], inp.replies, 0, |IDS| + PassStart(BINDINGS, inp.keys, p))
  {
    SessionDecomposes(inp);
    var c := Consumed(inp.keys);
    assert c[..p + 1] == inp.keys[..p + 1];
    assert c[..p] == inp.keys[..p];
    assert c[p] == inp.keys[p];
    LoopPassOfKey(BINDINGS, c, inp.replies, |IDS|, p);
    var e := Sweep(TORQUE_ENABLE);
    var loop := Loop(BINDINGS, c, inp.replies, |IDS|).cmds;
    var d: seq<Command> := if ESC in inp.keys then Sweep(TORQUE_DISABLE) + [Close] else [];
    var o := |IDS| + PassStart(BINDINGS, inp.keys, p);
    PassAtShift(BINDINGS, e, loop, inp.keys[p], inp.replies, 0, |IDS|, PassStart(BINDINGS, c, p), o);
    PassAtPrefix(BINDINGS, e + loop, d, inp.keys[p], inp.replies, 0, o);
  }

  lemma SameShapeRefl(t: seq<Command>)
    ensures SameShape(t, t)
  {
  }

  /** No reply, however bad, changes how startup went, how the run ends,
      or which commands go out; replies only feed the goal values. */
  lemma RepliesNeverChangeFlow(inp: Inputs, other: nat -> Reply)
    ensures var a := Session(inp);
      var b := Session(inp.(replies := other));
      a.startup == b.startup && a.status == b.status && SameShape(a.trace, b.trace)
  {
    if inp.portOpens && inp.baudSet {
      BindingsWellFormed();
      var l1 := Loop(BINDINGS, inp.keys, inp.replies, |IDS|).cmds;
      var l2 := Loop(BINDINGS, inp.keys, other, |IDS|).cmds;
      LoopShapeIgnoresReplies(BINDINGS, inp.keys, inp.replies, other, |IDS|);
      SameShapeRefl(Sweep(TORQUE_ENABLE));
      SameShapeConcat(Sweep(TORQUE_ENABLE), Sweep(TORQUE_ENABLE), l1, l2);
      if ESC in inp.keys {
        var tail := Sweep(TORQUE_DISABLE) + [Close];
        SameShapeRefl(tail);
        assert Sweep(TORQUE_ENABLE) + l1 + Sweep(TORQUE_DISABLE) + [Close] == (Sweep(TORQUE_ENABLE) + l1) + tail;
        assert Sweep(TORQUE_ENABLE) + l2 + Sweep(TORQUE_DISABLE) + [Close] == (Sweep(TORQUE_ENABLE) + l2) + tail;
        SameShapeConcat(Sweep(TORQUE_ENABLE) + l1, Sweep(TORQUE_ENABLE) + l2, tail, tail);
      }
    }
  }
}
